=== FILE: README.md ===
# fastapi-log-viewer: message presentation and time window

A Dafny model of the pure logic inside `main.py` of a small FastAPI front end
for CloudWatch Logs. The model covers three parts:

- **Message layout** (`format_message`). A parsed log message is serialised with
  two-space indentation. Its lines are counted as newlines plus one. Over ten
  lines, it is shown in a collapsed `<details>` block. The summary of that block
  previews the first line of the *raw* message, cut to 80 characters with `...`
  appended. Otherwise the text is shown in a plain `<pre><code>` block.
- **Parse fallback** (the loop in `read_log_stream`). Each event's message is
  tried as JSON, then as a Python literal. If both fail, it stays verbatim.
  `json.loads`, `ast.literal_eval` and `json.dumps(..., indent=2)` are
  function-typed parameters. Each parser returns an `Option`, where `None` is
  the exception its handler catches. The serialiser either yields text or
  raises a `ValueError` or a `TypeError`; any other exception it raises ends
  like a `TypeError`. It runs inside the same `try` block
  as the parse. After a literal parse, a `ValueError` is caught and the
  message stays verbatim. Every other serialiser exception escapes, and the
  request fails (`Err(Uncaught(...))`).
- **Default window** (`get_log_events`). The window is seven days
  (604 800 000 ms). It ends at a truthy `lastEventTimestamp`, or otherwise at
  "now". "Now" is a parameter, and all times are whole milliseconds. A
  truthy timestamp that `datetime` cannot hold, or whose window would start
  before 0001-01-02, makes the request fail. The second case arises because
  the start's `.timestamp()` probes the local time one day before the start.

Files:

- `outcomes.dfy`: `Option` and `Result`.
- `text.dfy`: `str.count`, `str.split('\n')` and its first element, and `'\n'.join`.
- `message_format.dfy`: `format_message` and its constants.
- `message_parse.dfy`: the JSON → literal → verbatim fallback and the loop over events.
- `time_window.dfy`: the window arithmetic.

## Model

| member | source | states |
|---|---|---|
| Text.Count | main.py:63 | the count of a character equals its multiplicity in the string, and is zero exactly when the character is absent |
| Text.FirstLine | main.py:67 | `split('\n')[0]` is a prefix of the string with no newline, ending at the end of the string or just before a newline |
| Text.FirstLineUnique | main.py:67 | only one string has the first-line shape, so the first line is fully determined by that shape |
| Text.Split | main.py:67 | `split('\n')` yields at least one part, and no part contains a newline |
| Text.SplitCount | main.py:63-67 | `split('\n')` yields one more part than there are newlines |
| Text.JoinSplit | main.py:67 | joining the parts of `split('\n')` with newlines gives back the input |
| Text.SplitHeadIsFirstLine | main.py:67 | the first element of the split is the first line |
| Text.FirstLineOfConcat | main.py:66-67 | a newline-free line followed by a newline is the first line, whatever comes after it |
| Text.SplitJoin | main.py:67 | splitting newline-free parts joined with newlines gives back the parts (the other half of the split/join round trip) |
| MessageFormat.LineCount | main.py:63 | the line count is at least one, and is exactly one when the pretty text has no newline |
| MessageFormat.LineCountIsSplitLength | main.py:63 | the line count equals the number of parts `split('\n')` yields |
| MessageFormat.Preview | main.py:66-69 | the preview has no newline and at most 83 characters; if the raw first line fits in 80 characters, the preview is exactly that line; otherwise it is the raw message's first 80 characters followed by `...` |
| MessageFormat.FormatMessage | main.py:61-72 | the output opens a `<details>` block exactly when the pretty text has more than 10 lines; the whole pretty text, and nothing else, sits between the block's opening and closing; a collapsed block opens with the summary holding the raw-message preview and closes with `</details>`, an expanded one is a bare `<pre><code>` block |
| MessageFormat.FormatMessageRoundTrip | main.py:70-72 | the full pretty text can be read back from either kind of block, so nothing in the detail region is truncated |
| MessageFormat.CodeBlockIntact | main.py:70-72 | both kinds of output contain `<pre><code>`, the whole pretty text and `</code></pre>` as one contiguous substring (the text is not HTML-escaped, so this is a statement about characters, not about the parsed HTML element) |
| MessageFormat.SingleLineNeverCollapsed | main.py:63-65 | pretty text without a newline counts as one line and is never collapsed |
| MessageFormat.OnlyFirstLineOfOriginalMatters | main.py:65-72 | the raw message affects the output only through its first line, and does not affect an expanded block at all |
| MessageFormat.PreviewOfShortFirstLine | main.py:66-69 | a raw first line of at most 80 characters is the preview unchanged, whatever follows it |
| MessageParse.ParseMessage | main.py:74-86 | the JSON parser decides first; the literal parser's value is used exactly when JSON fails and the literal parse succeeds; the message is unparsed exactly when both fail |
| MessageParse.RenderMessage | main.py:74-86 | an unparsed message is displayed exactly as it came; a serialised one is displayed as the layout of its serialisation, with the raw message supplying the preview; a serialiser `ValueError` after a literal parse leaves the message verbatim; the request fails exactly when the serialiser raises anything else |
| MessageParse.SerialiserErrorByPath | main.py:74-86 | a serialiser exception after a JSON parse always escapes; a `ValueError` after a literal parse gives the raw message; a `TypeError` escapes on either path |
| MessageParse.LiteralParserUnusedAfterJson | main.py:74-83 | when JSON accepts the message, the literal parser has no influence on the display |
| MessageParse.VerbatimOnDoubleFailure | main.py:84-86 | when both parsers reject the message, it is displayed verbatim, whatever the serialiser would do |
| MessageParse.MapMessages | main.py:53-86 | the loop over events, for any per-message rendering: it succeeds exactly when every message renders; each event then carries its rendered message, in order; otherwise the list fails with the fault of the first message whose rendering fails, all earlier ones having rendered |
| MessageParse.RenderEvents | main.py:53-86 | the event list succeeds exactly when every message renders; each event then carries its rendered message, with order and count kept; otherwise the request fails with the uncaught exception of the first message that raises one |
| TimeWindow.DefaultWindow | main.py:110-115 | the request fails exactly when a truthy `lastEventTimestamp` lies outside the dates `datetime` can hold or less than eight days after year 1 begins (seven for the window, one for the probe of the start's `.timestamp()`); otherwise the window ends exactly at a truthy `lastEventTimestamp` and at now when there is none; it always starts 604 800 000 ms earlier, so it is non-empty |
| TimeWindow.AnchorRangeEdges | main.py:110-112 | the last millisecond of year 9999 is a valid anchor and the first of year 10000 is not; the first valid anchor is 0001-01-09T00:00, eight days after 0001-01-01, and the millisecond before it is not |
| TimeWindow.WindowShiftsWithAnchor | main.py:110-112 | moving an in-range anchor by some amount moves both ends of its window by that amount |
| TimeWindow.ZeroTimestampMeansNow | main.py:110 | a zero `lastEventTimestamp` is falsy and gives the same window as a missing one |
| TimeWindow.AnchoredWindowIgnoresClock | main.py:110-112 | a window anchored at a non-zero timestamp does not depend on the clock |

## Left out

- TimeWindow.DefaultWindow: works in exact integer milliseconds. The source goes through local `datetime`, `timedelta(days=7)` and a float `timestamp() * 1000` truncated by `int()`. Near a daylight-saving change, its start can differ from `end − 7 days` by an hour, and float rounding can move it by a millisecond.
- TimeWindow.DefaultWindow: reads the clock once. Without a timestamp, the source calls `datetime.now()` separately for the end and for the start, so its window can be a few microseconds shorter.
- MessageParse.RenderMessage: a parser has only two outcomes, a value or the exception its handler catches. Other exceptions can propagate from the parsers and are not modelled. Examples: a plain `ValueError` from `json.loads` for an integer with too many digits, a `TypeError` from `ast.literal_eval` for an unhashable dictionary key, and a `RecursionError` on deep nesting. The serialiser's outcomes are text, `ValueError` and `TypeError`. A `RecursionError` or `MemoryError` from `json.dumps` on deeply nested values is not a separate outcome. It escapes on both paths, exactly as a `TypeError` does. `json.loads`, `ast.literal_eval` and `json.dumps` are opaque parameters, and their grammars are not modelled.
- TimeWindow.DefaultWindow: the range limits are taken in UTC. `datetime.fromtimestamp` converts to local time, so each limit moves by the host's UTC offset at that date. For the year-10000 limit that is at most 14 hours. Year-1 dates predate every time-zone transition and use local mean time, so the lower limit can move by about 16 hours (for example, −15:56:08 in Asia/Manila). The lower limit includes the one-day probe that `.timestamp()` makes before the start. That probe is taken from CPython's `datetime`, which the source calls but does not contain.
- MessageParse.RenderEvents: does not model how timestamps are rewritten into `'%Y-%m-%d %H:%M:%S'` strings (main.py:54-55). That formatting depends on the host's time zone.
- MessageParse.MapMessages: leaves every field but the message unchanged, so it likewise does not model the timestamp rewriting at main.py:54-55.
- MessageFormat.Preview: lengths are counted in Dafny characters (Unicode scalar values). Python counts code points, which can also include lone surrogates.
- boto3 calls (`get_log_groups`, `get_log_streams`, the `get_log_events` request) and their print-and-return-empty error handling: network I/O against a remote service.
- FastAPI route handlers, Jinja2 template rendering, `unquote_plus` decoding of path parameters, logging configuration and the `uvicorn` entry point: web plumbing with no logic of its own.
- The creation-time and last-event-time display strings in `read_root` and `read_log_group`: clock and time-zone formatting.

=== FILE: message_format.dfy ===
/** `format_message` in main.py: the pretty-printed form of a parsed log
    message is shown in a plain code block, or, when it runs over ten lines,
    behind a collapsed `<details>` toggle whose summary previews the first
    line of the raw message. */
module MessageFormat {
  import opened Outcomes
  import opened Text

  /** A pretty-printed message with more lines than this is collapsed. */
  const LineThreshold: nat := 10
  /** The preview keeps at most this many characters of the raw first line. */
  const PreviewCharLimit: nat := 80
  const Ellipsis := "..."

  const DetailsOpen := "<details>"
  const SummaryOpen := DetailsOpen + "<summary><span style=\"color: gray;\">Details:</span> "
  const SummaryClose := "</summary>"
  const CodeOpen := "<pre><code>"
  const CodeClose := "</code></pre>"
  const DetailsClose := "</details>"

  /** Lines of the pretty-printed text, counted as its newlines plus one;
      exactly one when there is no newline at all. */
  function LineCount(pretty: string): (n: nat)
    ensures n >= 1
    ensures n == 1 <==> '\n' !in pretty
  {
    Count(pretty, '\n') + 1
  }

  /** The line count is the number of parts `split('\n')` yields. */
  lemma LineCountIsSplitLength(pretty: string)
    ensures LineCount(pretty) == |Split(pretty)|
  {
    SplitCount(pretty);
  }

  /** The raw message's first line is longer than the preview limit: its
      first `PreviewCharLimit + 1` characters hold no newline. */
  predicate FirstLineTooLong(original: string) {
    |original| > PreviewCharLimit && '\n' !in original[..PreviewCharLimit + 1]
  }

  /** The summary text of a collapsed block: the first line of the raw
      message, cut to `PreviewCharLimit` characters followed by an ellipsis
      when it is longer than that. */
  function Preview(original: string): (p: string)
    ensures '\n' !in p
    ensures |p| <= PreviewCharLimit + |Ellipsis|
    ensures !FirstLineTooLong(original) ==> IsFirstLine(p, original)
    ensures FirstLineTooLong(original) ==>
      && |p| == PreviewCharLimit + |Ellipsis|
      && p[..PreviewCharLimit] == original[..PreviewCharLimit]
      && p[PreviewCharLimit..] == Ellipsis
  {
    var line := FirstLine(original);
    if |line| > PreviewCharLimit then
      assert original[..PreviewCharLimit + 1] == line[..PreviewCharLimit + 1];
      line[..PreviewCharLimit] + Ellipsis
    else
      line
  }

  /** What precedes the pretty-printed text: for a collapsed block, the
      `<details>` summary holding the preview of `original`, then the opening
      of the code block; otherwise just the opening of the code block. */
  function Opening(collapsed: bool, original: string): string
  {
    if collapsed then SummaryOpen + Preview(original) + SummaryClose + CodeOpen else CodeOpen
  }

  /** What follows the pretty-printed text. */
  function Closing(collapsed: bool): string
  {
    if collapsed then CodeClose + DetailsClose else CodeClose
  }

  /** The HTML produced for one message from its pretty-printed form `pretty`
      and its raw text `original`. It opens a `<details>` block exactly when
      `pretty` has more than `LineThreshold` lines, and `pretty` stands whole,
      and alone, between the opening and the closing of its block. */
  function FormatMessage(pretty: string, original: string): (html: string)
    ensures StartsWith(html, DetailsOpen) <==> LineCount(pretty) > LineThreshold
    ensures var collapsed := LineCount(pretty) > LineThreshold;
      && StartsWith(html, Opening(collapsed, original))
      && EndsWith(html, Closing(collapsed))
      && |html| == |Opening(collapsed, original)| + |pretty| + |Closing(collapsed)|
      && html[|Opening(collapsed, original)|..|html| - |Closing(collapsed)|] == pretty
  {
    var collapsed := LineCount(pretty) > LineThreshold;
    var head := Opening(collapsed, original);
    var tail := Closing(collapsed);
    ConcatSlices(head, pretty, tail);
    OpeningMarksDetails(collapsed, original, pretty, tail);
    head + pretty + tail
  }

  /** Only the opening of a collapsed block starts with `<details>`. */
  lemma OpeningMarksDetails(collapsed: bool, original: string, middle: string, tail: string)
    ensures StartsWith(Opening(collapsed, original) + middle + tail, DetailsOpen) <==> collapsed
  {
    var html := Opening(collapsed, original) + middle + tail;
    if collapsed {
      assert html[..|DetailsOpen|] == SummaryOpen[..|DetailsOpen|] == DetailsOpen;
    } else {
      assert html[1] == CodeOpen[1] != DetailsOpen[1];
    }
  }

  /** Reads the pretty-printed text back out of a message's HTML, given the
      raw message that supplied its preview; `None` when `html` does not have
      the shape `FormatMessage` produces. */
  function DetailOf(html: string, original: string): Option<string>
  {
    var collapsed := StartsWith(html, DetailsOpen);
    var head := Opening(collapsed, original);
    var tail := Closing(collapsed);
    if |head| + |tail| <= |html| && StartsWith(html, head) && EndsWith(html, tail) then
      Some(html[|head|..|html| - |tail|])
    else
      None
  }

  /** Nothing of the pretty-printed text is lost: it can be read back whole
      from either kind of block. */
  lemma FormatMessageRoundTrip(pretty: string, original: string)
    ensures DetailOf(FormatMessage(pretty, original), original) == Some(pretty)
  {
  }

  /** Either kind of block contains `<pre><code>`, the whole pretty-printed
      text and `</code></pre>` as one contiguous piece. Nothing is
      HTML-escaped, so a pretty text that itself holds `</code></pre>` ends
      the element early once a browser reads the markup. */
  lemma CodeBlockIntact(pretty: string, original: string)
    ensures Contains(FormatMessage(pretty, original), CodeOpen + pretty + CodeClose)
  {
    var collapsed := LineCount(pretty) > LineThreshold;
    var pre := if collapsed then SummaryOpen + Preview(original) + SummaryClose else "";
    var post := if collapsed then DetailsClose else "";
    assert Opening(collapsed, original) == pre + CodeOpen;
    assert Closing(collapsed) == CodeClose + post;
    Regroup(pre, CodeOpen, pretty, CodeClose, post);
    ContainsMiddle(pre, CodeOpen + pretty + CodeClose, post);
  }

  /** A pretty-printed text without a newline (a number, a string, an empty
      list) is one line and is never collapsed. */
  lemma SingleLineNeverCollapsed(pretty: string, original: string)
    requires '\n' !in pretty
    ensures LineCount(pretty) == 1
    ensures !StartsWith(FormatMessage(pretty, original), DetailsOpen)
  {
  }

  /** The raw message influences the output only through its first line, and
      an expanded block does not depend on it at all. */
  lemma OnlyFirstLineOfOriginalMatters(pretty: string, original1: string, original2: string)
    requires FirstLine(original1) == FirstLine(original2) || LineCount(pretty) <= LineThreshold
    ensures FormatMessage(pretty, original1) == FormatMessage(pretty, original2)
  {
  }

  /** The preview is taken from the raw message, not from the pretty-printed
      text: a raw message whose first line is `line` previews `line` when it
      fits, whatever follows it. */
  lemma {:induction false} PreviewOfShortFirstLine(line: string, rest: string)
    requires '\n' !in line
    requires |line| <= PreviewCharLimit
    ensures Preview(line + "\n" + rest) == line
  {
    FirstLineOfConcat(line, rest);
  }
}

=== FILE: message_parse.dfy ===
/** How `read_log_stream` in main.py decides what each log event displays:
    the raw message is parsed as JSON, failing that as a Python literal, and
    failing both it is shown verbatim. A parsed value is serialised with
    two-space indentation and laid out by `FormatMessage`; the serialisation
    runs inside the same `try` block as the parse that produced the value.

    The library routines are parameters: `loadsJson` stands for
    `json.loads` and `literalEval` for `ast.literal_eval` (each `None` when it
    raises the exception its handler catches), and `dumpsIndented` for
    `json.dumps(..., indent=2)`, which either yields text or raises a
    `ValueError` (an integer too long to convert to a string) or a
    `TypeError` (a value JSON cannot represent, such as a set). Any other
    exception it raises, such as a `RecursionError` on deep nesting, is
    caught by neither handler and ends like a `TypeError`. */
module MessageParse {
  import opened Outcomes
  import opened MessageFormat

  /** The parser that accepted a message. */
  datatype Parser = Json | Literal

  /** The outcome of the two-step parse. */
  datatype Parsed<V> = Parsed(parser: Parser, value: V) | Unparsed

  /** The exceptions the serialiser can raise. */
  datatype PyError = ValueError | TypeError

  /** The outcome of serialising a parsed value. */
  datatype Dump = Dumped(pretty: string) | DumpRaised(error: PyError)

  /** An exception that escapes the request handler. */
  datatype Fault = Uncaught(error: PyError)

  /** Whether the handler around the serialisation catches `error`. After a
      JSON parse only `json.JSONDecodeError` is caught, which the serialiser
      never raises; after a literal parse `ValueError` and `SyntaxError` are
      caught, and the message is then kept verbatim. */
  predicate Caught(parser: Parser, error: PyError) {
    parser == Literal && error == ValueError
  }

  /** JSON is tried first; the literal parser only sees messages JSON
      rejected; a message both reject stays unparsed. */
  function ParseMessage<V>(loadsJson: string -> Option<V>, literalEval: string -> Option<V>, raw: string): (p: Parsed<V>)
    ensures p.Parsed? && p.parser == Json <==> loadsJson(raw).Some?
    ensures p.Parsed? && p.parser == Literal <==> loadsJson(raw).None? && literalEval(raw).Some?
    ensures p.Unparsed? <==> loadsJson(raw).None? && literalEval(raw).None?
    ensures p.Parsed? && p.parser == Json ==> p.value == loadsJson(raw).value
    ensures p.Parsed? && p.parser == Literal ==> p.value == literalEval(raw).value
  {
    match loadsJson(raw)
    case Some(v) => Parsed(Json, v)
    case None =>
      match literalEval(raw)
      case Some(v) => Parsed(Literal, v)
      case None => Unparsed
  }

  /** The text an event displays in place of its raw message `raw`. A message
      neither parser accepts is kept exactly as it came. A parsed message is
      shown as the layout of its serialisation, with `raw` supplying the
      preview. If the serialiser raises, the message is kept verbatim when
      the surrounding handler catches the exception, and the request fails
      otherwise. */
  function RenderMessage<V>(loadsJson: string -> Option<V>, literalEval: string -> Option<V>,
                            dumpsIndented: V -> Dump, raw: string): (r: Result<string, Fault>)
    ensures ParseMessage(loadsJson, literalEval, raw).Unparsed? ==> r == Ok(raw)
    ensures var p := ParseMessage(loadsJson, literalEval, raw);
      p.Parsed? && dumpsIndented(p.value).Dumped? ==> r == Ok(FormatMessage(dumpsIndented(p.value).pretty, raw))
    ensures var p := ParseMessage(loadsJson, literalEval, raw);
      p.Parsed? && dumpsIndented(p.value).DumpRaised? ==>
        r == (if Caught(p.parser, dumpsIndented(p.value).error) then Ok(raw) else Err(Uncaught(dumpsIndented(p.value).error)))
  {
    match ParseMessage(loadsJson, literalEval, raw)
    case Unparsed => Ok(raw)
    case Parsed(parser, v) =>
      match dumpsIndented(v)
      case Dumped(pretty) => Ok(FormatMessage(pretty, raw))
      case DumpRaised(error) => if Caught(parser, error) then Ok(raw) else Err(Uncaught(error))
  }

  /** When JSON accepts the message, the literal parser is never consulted:
      any literal parser gives the same display. */
  lemma LiteralParserUnusedAfterJson<V>(loadsJson: string -> Option<V>,
                                        literalEval1: string -> Option<V>, literalEval2: string -> Option<V>,
                                        dumpsIndented: V -> Dump, raw: string)
    requires loadsJson(raw).Some?
    ensures RenderMessage(loadsJson, literalEval1, dumpsIndented, raw) == RenderMessage(loadsJson, literalEval2, dumpsIndented, raw)
  {
  }

  /** When both parsers reject the message, the serialiser is never
      consulted and the message is shown verbatim. */
  lemma VerbatimOnDoubleFailure<V>(loadsJson: string -> Option<V>, literalEval: string -> Option<V>,
                                   dumpsIndented: V -> Dump, raw: string)
    requires loadsJson(raw).None? && literalEval(raw).None?
    ensures RenderMessage(loadsJson, literalEval, dumpsIndented, raw) == Ok(raw)
  {
  }

  /** The same serialiser failure ends differently on the two paths: a
      `ValueError` after a literal parse leaves the message verbatim, while
      any exception after a JSON parse escapes the handler. */
  lemma SerialiserErrorByPath<V>(loadsJson: string -> Option<V>, literalEval: string -> Option<V>,
                                 dumpsIndented: V -> Dump, raw: string, error: PyError)
    requires ParseMessage(loadsJson, literalEval, raw).Parsed?
    requires dumpsIndented(ParseMessage(loadsJson, literalEval, raw).value) == DumpRaised(error)
    ensures loadsJson(raw).Some? ==> RenderMessage(loadsJson, literalEval, dumpsIndented, raw) == Err(Uncaught(error))
    ensures loadsJson(raw).None? && error == ValueError ==> RenderMessage(loadsJson, literalEval, dumpsIndented, raw) == Ok(raw)
    ensures error == TypeError ==> RenderMessage(loadsJson, literalEval, dumpsIndented, raw) == Err(Uncaught(TypeError))
  {
  }

  /** A log event as the handler sees it: its timestamp in epoch milliseconds
      and its message text. */
  datatype LogEvent = LogEvent(timestamp: int, message: string)

  /** The loop over the fetched events, for any per-message `render`: every
      event's message is replaced by its rendering, in order, and the first
      message whose rendering fails aborts the whole list with that message's
      fault. */
  method MapMessages(render: string -> Result<string, Fault>, events: seq<LogEvent>)
    returns (r: Result<seq<LogEvent>, Fault>)
    ensures r.Ok? <==> forall i :: 0 <= i < |events| ==> render(events[i].message).Ok?
    ensures r.Ok? ==> |r.value| == |events|
    ensures r.Ok? ==> forall i :: 0 <= i < |events| ==>
      r.value[i] == events[i].(message := render(events[i].message).value)
    ensures r.Err? ==> exists j ::
      && 0 <= j < |events|
      && (forall i :: 0 <= i < j ==> render(events[i].message).Ok?)
      && render(events[j].message) == Err(r.error)
  {
    var shown: seq<LogEvent> := [];
    var k := 0;
    while k < |events|
      invariant 0 <= k <= |events|
      invariant |shown| == k
      invariant forall i :: 0 <= i < k ==> render(events[i].message).Ok?
      invariant forall i :: 0 <= i < k ==> shown[i] == events[i].(message := render(events[i].message).value)
    {
      var m := render(events[k].message);
      if m.Err? {
        return Err(m.error);
      }
      shown := shown + [events[k].(message := m.value)];
      k := k + 1;
    }
    return Ok(shown);
  }

  /** The events as `read_log_stream` hands them to the template: each
      message replaced by its display text, in order. The first event whose
      rendering raises an uncaught exception aborts the request with that
      exception, and then no event list is produced. */
  method RenderEvents<V>(loadsJson: string -> Option<V>, literalEval: string -> Option<V>,
                         dumpsIndented: V -> Dump, events: seq<LogEvent>)
    returns (r: Result<seq<LogEvent>, Fault>)
    ensures r.Ok? <==> forall i :: 0 <= i < |events| ==> RenderMessage(loadsJson, literalEval, dumpsIndented, events[i].message).Ok?
    ensures r.Ok? ==> |r.value| == |events|
    ensures r.Ok? ==> forall i :: 0 <= i < |events| ==>
      r.value[i] == events[i].(message := RenderMessage(loadsJson, literalEval, dumpsIndented, events[i].message).value)
    ensures r.Err? ==> exists j ::
      && 0 <= j < |events|
      && (forall i :: 0 <= i < j ==> RenderMessage(loadsJson, literalEval, dumpsIndented, events[i].message).Ok?)
      && RenderMessage(loadsJson, literalEval, dumpsIndented, events[j].message) == Err(r.error)
  {
    r := MapMessages(raw => RenderMessage(loadsJson, literalEval, dumpsIndented, raw), events);
  }
}

=== FILE: outcomes.dfy ===
/** Optional values and fallible results, used for the library parsers that may
    reject their input and for the rendering step that may raise. */
module Outcomes {

  /** A value that may be absent: a parser's result, or a request parameter
      that was not supplied. */
  datatype Option<+T> = None | Some(value: T)

  /** The outcome of a step that either produces a value or raises an error
      that nothing in the handler catches. */
  datatype Result<+T, +E> = Ok(value: T) | Err(error: E)
}

=== FILE: text.dfy ===
/** The string operations the message formatter relies on: counting one
    character (Python's `str.count`), splitting at newlines (`str.split('\n')`)
    and joining back (`'\n'.join`). */
module Text {

  /** `s` begins with `prefix`. */
  predicate StartsWith(s: string, prefix: string) {
    prefix <= s
  }

  /** `s` ends with `suffix`. */
  predicate EndsWith(s: string, suffix: string) {
    |suffix| <= |s| && s[|s| - |suffix|..] == suffix
  }

  /** The three pieces of a concatenation can be sliced back out of it. */
  lemma ConcatSlices(a: string, b: string, c: string)
    ensures (a + b + c)[..|a|] == a
    ensures (a + b + c)[|a| + |b|..] == c
    ensures (a + b + c)[|a|..|a| + |b|] == b
  {
  }

  /** `t` occurs in `s` as a contiguous piece. */
  predicate Contains(s: string, t: string) {
    exists k :: 0 <= k <= |s| && t <= s[k..]
  }

  /** A piece in the middle of a concatenation occurs in it. */
  lemma ContainsMiddle(a: string, b: string, c: string)
    ensures Contains(a + b + c, b)
  {
    assert (a + b + c)[|a|..] == b + c;
  }

  /** Concatenation regrouped around a middle piece. */
  lemma Regroup(a: string, b: string, m: string, c: string, d: string)
    ensures (a + b) + m + (c + d) == a + (b + m + c) + d
  {
  }

  /** Number of occurrences of `c` in `s`. */
  function Count(s: string, c: char): (n: nat)
    ensures n == multiset(s)[c]
    ensures n <= |s|
    ensures n == 0 <==> c !in s
  {
    if |s| == 0 then 0
    else
      assert s == [s[0]] + s[1..];
      (if s[0] == c then 1 else 0) + Count(s[1..], c)
  }

  /** Counting distributes over concatenation. */
  lemma CountConcat(a: string, b: string, c: char)
    ensures Count(a + b, c) == Count(a, c) + Count(b, c)
  {
    assert multiset(a + b) == multiset(a) + multiset(b);
  }

  /** `line` is the part of `s` before its first newline, or all of `s` when
      it has none. */
  predicate IsFirstLine(line: string, s: string) {
    && line <= s
    && '\n' !in line
    && (|line| == |s| || s[|line|] == '\n')
  }

  /** The first element of `s.split('\n')`. */
  function FirstLine(s: string): (line: string)
    ensures IsFirstLine(line, s)
  {
    if |s| == 0 || s[0] == '\n' then ""
    else [s[0]] + FirstLine(s[1..])
  }

  /** Only one string is the first line of `s`. */
  lemma FirstLineUnique(line: string, s: string)
    requires IsFirstLine(line, s)
    ensures line == FirstLine(s)
  {
  }

  /** Puts the parts back together with a newline between neighbours. */
  function Join(parts: seq<string>): string
  {
    if |parts| == 0 then ""
    else if |parts| == 1 then parts[0]
    else parts[0] + "\n" + Join(parts[1..])
  }

  /** The list `s.split('\n')`: never empty, and no part holds a newline. */
  function Split(s: string): (parts: seq<string>)
    ensures |parts| >= 1
    ensures forall i :: 0 <= i < |parts| ==> '\n' !in parts[i]
    decreases |s|
  {
    var line := FirstLine(s);
    if |line| == |s| then
      [line]
    else
      var tail := Split(s[|line| + 1..]);
      assert forall i :: 1 <= i < |[line] + tail| ==> ([line] + tail)[i] == tail[i - 1];
      [line] + tail
  }

  /** One step of the split: the first line, then the split of what follows
      the first newline. */
  lemma SplitUnfold(s: string)
    requires |FirstLine(s)| < |s|
    ensures s == FirstLine(s) + "\n" + s[|FirstLine(s)| + 1..]
    ensures Split(s) == [FirstLine(s)] + Split(s[|FirstLine(s)| + 1..])
  {
  }

  /** The split has one more part than `s` has newlines. */
  lemma {:induction false} SplitCount(s: string)
    ensures |Split(s)| == Count(s, '\n') + 1
    decreases |s|
  {
    var line := FirstLine(s);
    if |line| < |s| {
      var rest := s[|line| + 1..];
      SplitUnfold(s);
      CountConcat(line, "\n" + rest, '\n');
      CountConcat("\n", rest, '\n');
      SplitCount(rest);
    }
  }

  /** Joining the parts of the split gives back `s`. */
  lemma {:induction false} JoinSplit(s: string)
    ensures Join(Split(s)) == s
    decreases |s|
  {
    var line := FirstLine(s);
    if |line| < |s| {
      var rest := s[|line| + 1..];
      SplitUnfold(s);
      JoinSplit(rest);
      var parts := Split(s);
      assert parts[1..] == Split(rest);
    }
  }

  /** The first part of the split is the first line. */
  lemma SplitHeadIsFirstLine(s: string)
    ensures Split(s)[0] == FirstLine(s)
  {
  }

  /** A line followed by a newline has that line as its first line, whatever
      comes after. */
  lemma FirstLineOfConcat(line: string, rest: string)
    requires '\n' !in line
    ensures FirstLine(line + "\n" + rest) == line
  {
    var s := line + "\n" + rest;
    assert s[|line|] == '\n';
    FirstLineUnique(line, s);
  }

  /** Splitting what was joined gives back the parts, as long as none of them
      holds a newline. */
  lemma {:induction false} SplitJoin(parts: seq<string>)
    requires |parts| > 0
    requires forall i :: 0 <= i < |parts| ==> '\n' !in parts[i]
    ensures Split(Join(parts)) == parts
    decreases |parts|
  {
    if |parts| == 1 {
      FirstLineUnique(parts[0], parts[0]);
    } else {
      var rest := Join(parts[1..]);
      var s := parts[0] + "\n" + rest;
      assert Join(parts) == s;
      FirstLineOfConcat(parts[0], rest);
      SplitUnfold(s);
      assert s[|parts[0]| + 1..] == rest;
      SplitJoin(parts[1..]);
      assert parts == [parts[0]] + parts[1..];
    }
  }
}

=== FILE: time_window.dfy ===
/** The time window `get_log_events` in main.py asks for: seven days ending
    at the stream's last event when the request names one, or ending now.
    Times are whole epoch milliseconds and the clock is a parameter. */
module TimeWindow {
  import opened Outcomes

  const MillisPerDay: int := 24 * 60 * 60 * 1000
  /** How far back the window reaches from its end. */
  const LookbackDays: int := 7
  const LookbackMs: int := LookbackDays * MillisPerDay

  /** Python's `datetime` covers years 1 to 9999: from 0001-01-01T00:00:00,
      62 135 596 800 000 ms before the epoch, up to, but excluding,
      10000-01-01T00:00:00, 253 402 300 800 000 ms after it. */
  const FirstDatetimeMs: int := -62_135_596_800_000
  const EndDatetimeMs: int := 253_402_300_800_000

  /** The `startTime` and `endTime` passed to the log-events request. */
  datatype Window = Window(startMs: int, endMs: int)

  /** Why no window could be computed: the anchor falls outside the dates
      `datetime` can hold, or its start lies in the first day of year 1 or
      earlier, so `datetime.fromtimestamp`, the subtraction of the
      `timedelta` or the start's `.timestamp()` raises, and nothing in
      `get_log_events` catches it. `.timestamp()` of a naive datetime solves
      for local time by probing the local time one day earlier, and for a
      start before 0001-01-02 that probe falls in year 0. */
  datatype WindowError = AnchorOutOfRange(anchorMs: int)

  /** Python truthiness of the optional `lastEventTimestamp` query parameter:
      both a missing value and zero are false. */
  predicate Truthy(lastEventTimestamp: Option<int>) {
    lastEventTimestamp.Some? && lastEventTimestamp.value != 0
  }

  /** An anchor whose week-long window can be computed with `datetime`: the
      start, one day before it (the probe of `.timestamp()`), and the anchor
      itself are all dates `datetime` can hold. */
  predicate AnchorInRange(anchorMs: int) {
    FirstDatetimeMs <= anchorMs - LookbackMs - MillisPerDay && anchorMs < EndDatetimeMs
  }

  /** The window ends exactly at a truthy `lastEventTimestamp`, otherwise at
      the clock reading `nowMs`, and always starts 604 800 000 ms (seven
      days) before its end. A truthy timestamp before 0001-01-09 or from the
      year 10000 on makes the computation raise. */
  function DefaultWindow(lastEventTimestamp: Option<int>, nowMs: int): (r: Result<Window, WindowError>)
    ensures r.Err? <==> Truthy(lastEventTimestamp) && !AnchorInRange(lastEventTimestamp.value)
    ensures r.Err? ==> r.error.anchorMs == lastEventTimestamp.value
    ensures r.Ok? && Truthy(lastEventTimestamp) ==> r.value.endMs == lastEventTimestamp.value
    ensures r.Ok? && !Truthy(lastEventTimestamp) ==> r.value.endMs == nowMs
    ensures r.Ok? ==> r.value.endMs - r.value.startMs == 604_800_000
    ensures r.Ok? ==> r.value.startMs < r.value.endMs
  {
    if Truthy(lastEventTimestamp) then
      var anchorMs := lastEventTimestamp.value;
      if AnchorInRange(anchorMs) then Ok(Window(anchorMs - LookbackMs, anchorMs))
      else Err(AnchorOutOfRange(anchorMs))
    else
      Ok(Window(nowMs - LookbackMs, nowMs))
  }

  /** A zero timestamp is treated like a missing one. */
  lemma ZeroTimestampMeansNow(nowMs: int)
    ensures DefaultWindow(Some(0), nowMs) == DefaultWindow(None, nowMs)
  {
  }

  /** An anchored window does not consult the clock. */
  lemma AnchoredWindowIgnoresClock(lastEventTimestamp: int, nowMs1: int, nowMs2: int)
    requires lastEventTimestamp != 0
    ensures DefaultWindow(Some(lastEventTimestamp), nowMs1) == DefaultWindow(Some(lastEventTimestamp), nowMs2)
  {
  }

  /** The edges of the range: the first anchor of year 10000 fails and the
      last millisecond of year 9999 succeeds; an anchor less than eight days
      after the first `datetime` (0001-01-09T00:00) fails, because the
      start's `.timestamp()` probes a day before the start. */
  lemma AnchorRangeEdges(nowMs: int)
    ensures DefaultWindow(Some(EndDatetimeMs), nowMs).Err?
    ensures DefaultWindow(Some(EndDatetimeMs - 1), nowMs).Ok?
    ensures DefaultWindow(Some(FirstDatetimeMs + LookbackMs + MillisPerDay - 1), nowMs).Err?
    ensures DefaultWindow(Some(FirstDatetimeMs + LookbackMs + MillisPerDay), nowMs).Ok?
    ensures DefaultWindow(Some(-62_134_905_600_000), nowMs).Ok?
  {
  }

  /** Moving an in-range anchor moves its window by the same amount: the
      window's length and its position relative to the anchor do not depend
      on where the anchor lies. */
  lemma WindowShiftsWithAnchor(anchorMs: int, shiftMs: int, nowMs: int)
    requires anchorMs != 0 && anchorMs + shiftMs != 0
    requires AnchorInRange(anchorMs) && AnchorInRange(anchorMs + shiftMs)
    ensures DefaultWindow(Some(anchorMs + shiftMs), nowMs).value.startMs
      == DefaultWindow(Some(anchorMs), nowMs).value.startMs + shiftMs
    ensures DefaultWindow(Some(anchorMs + shiftMs), nowMs).value.endMs
      == DefaultWindow(Some(anchorMs), nowMs).value.endMs + shiftMs
  {
  }
}
